=== FILE: README.md ===
# Caption service core, modelled in Dafny

This project models the deterministic core of an AI social-media caption
service. The service sends a product image or text brief to a generative
model and returns a bundle of captions, hashtag sets, a posting time and a
content type (three captions and three hashtag sets in the fallback). Around
that one remote call sit five pieces of plain logic, and those are what this
project covers:

- **The response normaliser** (`_parse_ai_response`). It trims the generative
  model's reply. When the trimmed reply opens with a triple-backtick fence, it
  keeps the text up to the next fence and drops a lower-case `json` tag right
  after the opening fence. It then decodes the text and checks the four
  required top-level keys with Python's `in`.
- **The fallback bundle** (`_get_fallback_response`). This fixed bundle
  replaces any reply that does not decode, lacks one of the four keys under
  Python's `in`, or makes `in` raise. It also replaces the result of any call
  to the generative model that raises. A reply that passes the key check but
  does not validate as a response is answered 500 instead.
- **Upload validation and the three endpoints**:
  - `allowed_file`;
  - the order of checks in the image and text-file handlers;
  - the size ceiling and the minimum text length;
  - the temporary file's life cycle;
  - turning the service's dict into the response record, or a 500.
- **The image description** (`analyze_image_content`). It gives the
  orientation, the resolution tier and the format, with `"image"` when the
  metadata are missing.
- **The request and response schemas** (`TextBriefRequest`, `CaptionSet`,
  `HashtagSet`, `PostingTime`, `CaptionResponse`). This includes validating a
  decoded dict against them.

External parts become inputs:
- the JSON decoder is a function parameter `decode: string -> Option<Value>`;
- the call to the generative model is a `ModelReply`, which is either the reply text or `Raised`;
- image verification is a boolean;
- the result of saving the upload is a `WriteResult`;
- image metadata arrive as `Option<ImageInfo>`;
- the UTF-8 decoding of a text file is an `Option<string>`.

Everything else is pure functions over immutable datatypes.

Modules:

| file | module | contents |
|---|---|---|
| wrappers.dfy | `Wrappers` | `Option` |
| text.dfy | `Text` | Python `strip()` (Python's whitespace set), `startswith`, `endswith`, substring `in`, ASCII `lower()` |
| json.dfy | `Json` | the decoded-value datatype |
| config.dfy | `Config` | size ceiling and extension allow-lists |
| schemas.dfy | `Schemas` | request/response records, their dict encoding and validation, and the round trip between them |
| ai_service.dfy | `AiService` | reply cleaning, key check, fallback bundle, parser, the two generation entry points |
| ai_service_properties.dfy | `AiServiceProperties` | what cleaning and the key check do over all inputs |
| image_processor.dfy | `ImageProcessor` | orientation, tier, description, and reading a description back |
| routes.dfy | `Routes` | `allowed_file`, the three endpoints as functions to an HTTP outcome |
| routes_properties.dfy | `RoutesProperties` | end-to-end consequences for the endpoints |

Three behaviours of the code are easy to misread, and
the Dafny follows the code in each:
- **Which field carries the hint.** `_get_fallback_response` builds only the
  first caption's text from the hint (backend/services/ai_service.py:201).
  Every other field of the fallback is a fixed text.
- **Which tags are dropped.** The comment at
  backend/services/ai_service.py:163 speaks of removing the "json" marker.
  The test on the next lines removes only an exact lower-case `json` after
  the opening fence. Any other language tag, such as `JSON` or `python`,
  reaches the decoder.
- **The cleanup.** The "Clean up file" block at backend/main.py:150-153 runs
  only around the generative-model call. A failure while writing the
  temporary image file (backend/main.py:136-137) leaves the file on disk:
  see Findings.

## Model

| member | source | states |
|---|---|---|
| Text.Strip | backend/services/ai_service.py:161 | `strip()` leaves a text with no whitespace at either end, no longer than its input, and empty exactly when the input is all whitespace |
| Text.StripMargins | backend/services/ai_service.py:161 | `strip()` removes only whitespace: the input is the result with an all-whitespace margin on each side |
| Text.StripUnique | backend/services/ai_service.py:168 | conversely, a trimmed text between two whitespace margins is exactly what `strip()` returns |
| Text.StripPadded | backend/services/ai_service.py:161-168 | extra whitespace around a text does not change what `strip()` returns |
| Text.Lower | backend/main.py:71 | `lower()` keeps the length, leaves no ASCII capital in its result, and changes no character that is not an ASCII capital |
| AiService.NextFence | backend/services/ai_service.py:164 | the split finds the first fence at or after the given position, with no fence before it |
| AiService.FenceBody | backend/services/ai_service.py:162-164 | a trimmed reply that starts with a fence always has a second split segment. That segment is the text after the opening fence up to the next fence, or to the end when there is none, and it contains no fence |
| AiService.DropTag | backend/services/ai_service.py:165-166 | exactly a leading lower-case `json` is removed; any other segment is kept whole |
| AiService.Clean | backend/services/ai_service.py:160-168 | the text given to the decoder is trimmed; without an opening fence it is the trimmed reply; with one, it contains no fence |
| AiServiceProperties.CleanOfFenced | backend/services/ai_service.py:161-168 | a reply made of whitespace, a fenced block and anything after it cleans to the block's body, minus a `json` tag, trimmed |
| AiServiceProperties.FenceBodyOfBlock | backend/services/ai_service.py:164 | the second split segment ends at the block's closing fence |
| AiServiceProperties.FenceBodyUnterminated | backend/services/ai_service.py:164 | with no closing fence, the second split segment is everything after the opening fence |
| AiServiceProperties.CleanOfUnterminated | backend/services/ai_service.py:161-168 | a reply that opens a fence and never closes it cleans to the rest of the text, minus a `json` tag, trimmed; whitespace on either side of the reply, including after a cut-off last line, changes nothing |
| AiServiceProperties.CleanKeepsLaterFence | backend/services/ai_service.py:161-168 | a reply that does not open with a fence is only trimmed, and a fence further in survives |
| AiServiceProperties.CleanUnfenced | backend/services/ai_service.py:161-168 | a reply with no fence anywhere is only trimmed |
| AiServiceProperties.CleanWrappedTagged | backend/services/ai_service.py:160-171 | for a fence-free `t`, cleaning "```json\n" + t + "\n```" gives the same text as cleaning `t` |
| AiServiceProperties.CleanWrappedUntagged | backend/services/ai_service.py:160-171 | the same for a fence with no language tag |
| AiServiceProperties.ParseWrapped | backend/services/ai_service.py:159-186 | so the parser returns the same value for the fenced and the bare reply, with or without the `json` tag |
| AiServiceProperties.UpperCaseTagKept | backend/services/ai_service.py:165 | the tag test is case-sensitive: after an upper-case `JSON` tag, the decoder's text still starts with `JSON` |
| AiServiceProperties.CleanIdempotent | backend/services/ai_service.py:160-168 | cleaning a cleaned text changes nothing |
| AiService.Membership | backend/services/ai_service.py:175 | Python's `in` raises exactly on values that are not a dict, a list or a string |
| AiService.AllPresent | backend/services/ai_service.py:174-175 | the key check is true exactly when every key is present, and raises exactly when the value is a number, a boolean or null |
| AiService.KeysPresentByKind | backend/services/ai_service.py:175 | what "all four keys present" means for a dict (keys), a list (elements), a string (substrings), and that a scalar never passes |
| AiService.FallbackBundle | backend/services/ai_service.py:198-233 | the fallback has 3 captions toned Casual, Professional, Playful in that order, and 3 hashtag sets of 5 tags categorised Trending, Niche, Branded; the hint occurs in the first caption |
| AiService.FallbackDependsOnlyOnHint | backend/services/ai_service.py:198-233 | two fallbacks agree everywhere except the first caption's text, and those texts differ exactly when the hints differ |
| AiService.FallbackResponse | backend/services/ai_service.py:188-233 | the fallback dict is a valid `CaptionResponse` (it validates back to the bundle) and passes the key check |
| AiService.Parse | backend/services/ai_service.py:159-186 | the decoded value is returned as it is when it passes the key check; otherwise (decode error, missing key, `in` raising) the result is the fallback for "content"; either way the result passes the key check |
| AiServiceProperties.ParseObject | backend/services/ai_service.py:174-178 | a decoded dict is returned unchanged, nested values unchecked, exactly when it has the four keys, and otherwise the "content" fallback |
| AiServiceProperties.ParseArray | backend/services/ai_service.py:175-178 | a decoded list passes when it holds the four key names as elements |
| AiServiceProperties.ParseString | backend/services/ai_service.py:175-178 | a decoded string passes when the four key names are substrings of it |
| AiServiceProperties.ParseScalarFallsBack | backend/services/ai_service.py:175-186 | a decoded number, boolean or null makes `in` raise and yields the "content" fallback |
| AiServiceProperties.ParseUndecodable | backend/services/ai_service.py:171-183 | a reply the decoder rejects yields the "content" fallback, not one built from the caller's brief |
| AiService.GenerateFromText | backend/services/ai_service.py:93-147 | a raised generative-model call falls back with the brief itself as hint; a reply goes through the parser; the result always passes the key check |
| AiService.GenerateFromImage | backend/services/ai_service.py:87-91 | a raised generative-model call falls back with the hint "product image"; a reply goes through the parser |
| Schemas.ValidateBrief | backend/models/schemas.py:4-6 | a brief is accepted exactly when it has between 1 and 1000 characters, and is kept unchanged |
| Schemas.CaptionSetFromJson | backend/models/schemas.py:15-18 | a value validates as `CaptionSet` exactly when it is a dict whose `caption` and `tone` are strings, and the record holds those strings |
| Schemas.HashtagSetFromJson | backend/models/schemas.py:20-23 | a value validates as `HashtagSet` exactly when it is a dict whose `hashtags` is a list of strings and whose `category` is a string, and the record holds them in order |
| Schemas.PostingTimeFromJson | backend/models/schemas.py:25-29 | a value validates as `PostingTime` exactly when it is a dict whose `time`, `day` and `reason` are strings, and the record holds those strings |
| Schemas.StringsFromJson | backend/models/schemas.py:22 | a list validates as `List[str]` exactly when every element is a string |
| Schemas.CaptionSetsFromJson | backend/models/schemas.py:15-33 | a list validates as `List[CaptionSet]` exactly when every element does, with no bound on its length |
| Schemas.HashtagSetsFromJson | backend/models/schemas.py:20-34 | the same for `List[HashtagSet]` |
| Schemas.ResponseFromJson | backend/models/schemas.py:31-36 | a value validates exactly when it is a dict whose `captions` and `hashtag_sets` are lists that validate element by element, whose `posting_time` validates as `PostingTime` and whose `content_type` is a string; the record holds exactly what those validators return, with no bound on list lengths |
| Schemas.ResponseRoundTrip | backend/models/schemas.py:15-36 | every response record, whatever its list lengths, tones and categories, validates back unchanged from its dict encoding |
| Schemas.ExtraKeysIgnored | backend/models/schemas.py:31-36 | validation ignores keys the schema does not declare |
| ImageProcessor.OrientationOf | backend/services/image_processor.py:105-111 | landscape exactly when width > height, portrait exactly when width < height, square exactly when they are equal |
| ImageProcessor.TierOf | backend/services/image_processor.py:113-115 | high-resolution exactly when width * height > 1,000,000, strictly |
| ImageProcessor.AnalyzeImageContent | backend/services/image_processor.py:102-121 | missing metadata give exactly "image"; otherwise the description starts with the orientation and a space and ends with " image" |
| ImageProcessor.ParseDescription | backend/services/image_processor.py:117 | a description read back is exactly orientation, space, tier, space, format, " image" |
| ImageProcessor.DescriptionRoundTrip | backend/services/image_processor.py:105-117 | a description reads back as its orientation, tier and format, so two images share a description exactly when those three agree |
| ImageProcessor.MissingMetadataDistinct | backend/services/image_processor.py:119-121 | the missing-metadata answer never equals a real description |
| Routes.Extension | backend/main.py:68-71 | the extension exists exactly when the name has a dot, has no dot itself, and is what follows the last dot |
| Routes.ExtensionOfJoin | backend/main.py:71 | the extension of `p.e` is `e` whenever `e` has no dot |
| Routes.AllowedFile | backend/main.py:66-78 | an accepted name has a dot, the file type is "image" or "text", and its lower-cased extension is in an allow-list |
| Routes.AllowedFileOf | backend/main.py:71-78 | `p.e` is accepted for "image" exactly when lower(e) is jpg, jpeg, png, webp or gif, for "text" exactly when it is txt, and never for another type |
| Routes.TrailingDotRejected | backend/main.py:71 | a name ending in a dot has an empty extension and is never accepted |
| Routes.AllowedFileIgnoresCase | backend/main.py:71 | acceptance does not depend on the case of the extension |
| Routes.Respond | backend/main.py:155-163 | building the response record succeeds exactly when the dict validates, and the record is then the validated one; otherwise the answer is 500 |
| Routes.HandleImageUpload | backend/main.py:110-163 | checks run in order (no name 400, bad extension 400, over the ceiling 413, invalid image 400) and a later one never runs when an earlier one fails; a failed save is a 500; a valid saved image is answered from the dict generated for it; the file is written only after all three pre-checks pass and the write is attempted; it remains at exit exactly when `write` failed after `open` |
| Routes.HandleImageUploadGuarded | backend/main.py:132-153 | with the save inside the cleanup scope, the answers and writes are the same, and no exit leaves the file behind |
| Routes.HandleTextBrief | backend/main.py:166-187 | an invalid brief is answered 422 and nothing else is; a valid one is answered from the generated dict |
| Routes.HandleTextFile | backend/main.py:190-236 | checks run in order (no name, extension, content shorter than 5 characters once stripped); an undecodable file is a 500; a file that passes is answered from the dict generated from its whole text |
| RoutesProperties.SizeCeilingInclusive | backend/main.py:125-137 | an upload of exactly 10485760 bytes passes the size check, one byte more is answered 413, and no file is written |
| RoutesProperties.BitmapRejected | backend/main.py:118-122 | a `.bmp` upload is refused whatever its size, and nothing is written |
| RoutesProperties.ImageModelFailure | backend/main.py:147-155 | when the generative-model call raises, a valid image is still answered 200 with the "product image" fallback |
| RoutesProperties.BriefModelFailure | backend/main.py:177-181 | when the generative-model call raises, a valid brief is answered 200 with a fallback whose first caption quotes the brief |
| RoutesProperties.TextFileModelFailure | backend/main.py:215-228 | the same for a text file: the hint is the file's whole text, unstripped |
| RoutesProperties.UndecodableReply | backend/main.py:179-181 | a reply the decoder rejects is answered 200 with the "content" fallback |
| RoutesProperties.WellFormedReply | backend/main.py:179-181 | a reply that decodes to the dict of a response record is answered with that record |
| RoutesProperties.PaddedShortTextRejected | backend/main.py:219-223 | whitespace around a short text does not get it past the five-character minimum |
| RoutesProperties.KeyNamesListReachesServerError | backend/main.py:179-187 | a reply decoding to a list of the four key names passes the key check and then fails validation, so the caller gets a 500, not the fallback |
| RoutesProperties.NullFieldsReachServerError | backend/main.py:179-187 | likewise for a dict whose four keys hold null: nested shapes are not checked before validation |
| RoutesProperties.WriteFailureLeavesFile | backend/main.py:136-137 | a `write` failure after `open` is answered 500 with the temporary file left on disk; the guarded handler removes it |

## Left out

- The generative-model client is not modelled. This covers `genai.configure`, `generate_content`, `validate_api_key`, the prompt text and the generation parameters. The call appears only as "returns a text or raises".
- The JSON grammar is not modelled. `json.loads` is the `decode` parameter, and every property holds for any decoder.
- PIL is not modelled. This covers `get_image_info`, `validate_image`, `resize_image` and the thumbnail size. Validity is a boolean input, and metadata are an `Option<ImageInfo>` with `None` for the empty dict.
- File-system effects are not modelled. This covers `open`/`write`/`os.remove`, `create_upload_dir` and `read_text_file`. What remains is whether the temporary file was created and whether it still exists when the handler returns, as two booleans in `ImageRun`.
- Failures of `os.remove` itself are not modelled.
- Framework internals are not modelled: FastAPI routing, CORS, the lifespan hook, the HTTPException handler's JSON body, uvicorn, and werkzeug's `secure_filename`.
- Loading settings from the environment is not modelled. The size ceiling and the allow-lists are the defaults in backend/config.py:19-21.
- Logging to stdout is not modelled. This covers the `print` calls in the `except` branches of backend/services/ai_service.py and backend/services/image_processor.py, which no result depends on.
- Error-message texts are not modelled, including the size limit formatted as a float in MB. Outcomes carry a status and a reason, not a message.
- `backend/services/__init__.py` is not modelled, because it only re-exports.
- Text.Lower: lower-cases ASCII letters only. Python's Unicode `lower()` maps two non-ASCII characters to ASCII letters. The Kelvin sign becomes `k`, which no allowed extension contains. The capital dotted I becomes `i` followed by a combining dot, which is never a whole allowed extension. Acceptance decisions are therefore the same.
- Schemas.ResponseFromJson: inputs that `json.loads` cannot produce are outside the model: tuples, sets, bytes and model instances. Pydantic v2, which the `json_schema_extra` key at backend/models/schemas.py:8-13 indicates, accepts some of those in lax mode. On decoded JSON, the kinds a field accepts are exactly its declared ones: a number in a `str` field is rejected, so `"content_type": 5` is answered 500.
- AiService.Parse: the decoded `data` is returned as the decoder gave it. The order of keys in a dict and duplicate keys in the JSON text are not modelled.
- Routes.HandleTextFile: the UTF-8 decoding of the upload is an input (`None` when the bytes do not decode). The byte-level decoder is not modelled.
- ImageProcessor.AnalyzeImageContent: the format is given as PIL reports it (`None` renders as "None"). Dimensions are natural numbers. The case of a metadata dict without width or height keys cannot arise from `get_image_info`, and is not modelled.

## Findings

| source | as written | input that shows it | evidently intended | confidence | as-written member | corrected member |
|---|---|---|---|---|---|---|
| backend/main.py:136-137 | The temporary file is opened and written before the `try`/`finally` that removes it (lines 148-153). If `write` raises after `open` has created the file, the generic handler answers 500 and the partly written file stays in the upload directory. | An accepted `.png` of at most 10485760 bytes whose `write` fails, for example because the disk is full (`WriteFailed`). | No exit path leaves the temporary file behind, whatever the outcome. | medium, not executed | RoutesProperties.WriteFailureLeavesFile | Routes.HandleImageUploadGuarded |

=== FILE: ai_service.dfy ===
/** The deterministic part of the caption generator: cleaning the generative
    model's raw reply (whitespace, a leading code fence, a `json` language tag), checking
    the four required top-level keys with Python's `in`, and the fixed fallback
    bundle returned whenever the reply cannot be used or the call to the
    generative model raises. */
module AiService {

  import opened Wrappers
  import opened Text
  import opened Json
  import opened Schemas

  /** The markdown code-fence delimiter. */
  const Fence: string := "```"

  /** The language tag dropped after an opening fence (case-sensitive). */
  const Tag: string := "json"

  /** The keys the reply must carry, in the order the check looks them up. */
  const RequiredKeys: seq<string> := ["captions", "hashtag_sets", "posting_time", "content_type"]

  /** The hint the parser's fallback uses. */
  const ContentHint: string := "content"

  /** The hint the image path's fallback uses. */
  const ImageHint: string := "product image"

  /** The outcome of one call to the generative model: its reply text, or an
      exception (transport, quota, blocked reply, unreadable image). */
  datatype ModelReply = Replied(text: string) | Raised

  /* ---------- cleaning the reply text ---------- */

  /** The first fence at or after `from`, or `|s|` if there is none: where
      Python's `split` ends the segment that starts at `from`. */
  function NextFence(s: string, from: nat): (k: nat)
    requires from <= |s|
    ensures from <= k <= |s|
    ensures k < |s| ==> OccursAt(s, Fence, k)
    ensures forall j :: from <= j < k ==> !OccursAt(s, Fence, j)
    decreases |s| - from
  {
    if from == |s| then |s|
    else if OccursAt(s, Fence, from) then from
    else NextFence(s, from + 1)
  }

  /** `t.split('```')[1]` for a `t` that starts with the fence: the text between
      the opening fence and the next one (or the end). Because `t` starts with
      the delimiter, the split always has a second part. */
  function FenceBody(t: string): (seg: string)
    requires StartsWith(t, Fence)
    ensures 3 + |seg| <= |t| && t[3..3 + |seg|] == seg
    ensures 3 + |seg| == |t| || OccursAt(t, Fence, 3 + |seg|)
    ensures forall j :: 3 <= j < 3 + |seg| ==> !OccursAt(t, Fence, j)
    ensures !IsInfix(Fence, seg)
  {
    var k := NextFence(t, 3);
    var seg := t[3..k];
    assert !IsInfix(Fence, seg) by {
      assert |Fence| == 3;
      forall i | 0 <= i <= |seg| ensures !OccursAt(seg, Fence, i) {
        if i + 3 <= |seg| {
          assert !OccursAt(t, Fence, 3 + i);
          assert seg[i] == t[3 + i] && seg[i + 1] == t[3 + i + 1] && seg[i + 2] == t[3 + i + 2];
        }
      }
    }
    seg
  }

  /** Drops a leading lower-case `json` tag, and nothing else. */
  function DropTag(seg: string): (r: string)
    ensures StartsWith(seg, Tag) ==> seg == Tag + r
    ensures !StartsWith(seg, Tag) ==> r == seg
  {
    if StartsWith(seg, Tag) then seg[4..] else seg
  }

  /** The text handed to the JSON decoder. */
  function Clean(raw: string): (c: string)
    ensures Trimmed(c)
    ensures !StartsWith(Strip(raw), Fence) ==> c == Strip(raw)
    ensures StartsWith(Strip(raw), Fence) ==> !IsInfix(Fence, c)
  {
    var t := Strip(raw);
    if StartsWith(t, Fence) then
      var seg := FenceBody(t);
      var u := DropTag(seg);
      assert !IsInfix(Fence, u) by {
        if StartsWith(seg, Tag) {
          assert seg == Tag + u + [];
          if IsInfix(Fence, u) { InfixOfMiddle(Fence, Tag, u, []); }
        }
      }
      var c := Strip(u);
      assert !IsInfix(Fence, c) by {
        var front, back := StripMargins(u);
        if IsInfix(Fence, c) { InfixOfMiddle(Fence, front, c, back); }
      }
      c
    else
      StripIdempotent(raw);
      Strip(t)
  }

  /* ---------- the required-key check ---------- */

  /** Python's `key in data` on a decoded value: key lookup on a dict, element
      equality on a list, substring on a string; `None` where Python raises
      `TypeError` (numbers, booleans, `None`). */
  function Membership(data: Value, key: string): (r: Option<bool>)
    ensures r.None? <==> !(data.JObject? || data.JArray? || data.JString?)
  {
    match data
    case JObject(fields) => Some(key in fields)
    case JArray(items) => Some(JString(key) in items)
    case JString(s) => Some(IsInfix(key, s))
    case _ => None
  }

  /** `all(key in data for key in keys)`, evaluated left to right. */
  function AllPresent(data: Value, keys: seq<string>): (r: Option<bool>)
    ensures r == Some(true) <==> forall i :: 0 <= i < |keys| ==> Membership(data, keys[i]) == Some(true)
    ensures r.None? <==> |keys| > 0 && !(data.JObject? || data.JArray? || data.JString?)
  {
    if keys == [] then Some(true)
    else match Membership(data, keys[0])
      case None => None
      case Some(false) => Some(false)
      case Some(true) =>
        var rest := AllPresent(data, keys[1..]);
        assert forall i :: 1 <= i < |keys| ==> keys[i] == keys[1..][i - 1];
        rest
  }

  /** The decoded value passes the parser's key check. */
  predicate KeysPresent(data: Value) {
    forall k :: k in RequiredKeys ==> Membership(data, k) == Some(true)
  }

  /** What the key check means for each kind of decoded value. */
  lemma {:induction false} KeysPresentByKind(data: Value)
    ensures data.JObject? ==> (KeysPresent(data) <==> forall k :: k in RequiredKeys ==> k in data.fields)
    ensures data.JArray? ==> (KeysPresent(data) <==> forall k :: k in RequiredKeys ==> JString(k) in data.items)
    ensures data.JString? ==> (KeysPresent(data) <==> forall k :: k in RequiredKeys ==> IsInfix(k, data.s))
    ensures !(data.JObject? || data.JArray? || data.JString?) ==> !KeysPresent(data)
  {
    if !(data.JObject? || data.JArray? || data.JString?) {
      assert Membership(data, RequiredKeys[0]).None?;
    }
  }

  /* ---------- the fallback bundle ---------- */

  /** The fixed texts of the fallback bundle. */
  const CasualLead: string := "\U{2728} Discover something amazing! Check out this "
  const CasualTail: string := " \U{1F31F}"
  const ProfessionalCaption: string := "Introducing our latest offering. Quality you can trust. \U{1F4BC}"
  const PlayfulCaption: string :=
    "You're going to love this! \U{1F60D} Swipe to see why everyone's talking about it! \U{1F449}"
  const TrendingTags: seq<string> := ["#NewArrival", "#MustHave", "#Trending", "#InstaGood", "#DailyInspiration"]
  const NicheTags: seq<string> := ["#ProductLaunch", "#Innovation", "#QualityProducts", "#ShopNow", "#LimitedEdition"]
  const BrandedTags: seq<string> := ["#YourBrand", "#BrandStory", "#WeDeliver", "#CustomerFirst", "#ShopLocal"]
  const FallbackTime: PostingTime := PostingTime("12:00 PM - 2:00 PM", "Wednesday or Thursday",
                                                "Lunch break hours on mid-week days typically see high engagement")
  const FallbackContentType: string := "General Product/Service"

  /** The fixed bundle; only the first caption mentions `hint`. */
  function FallbackBundle(hint: string): (b: CaptionResponse)
    ensures |b.captions| == 3
    ensures b.captions[0].tone == "Casual" && b.captions[1].tone == "Professional" && b.captions[2].tone == "Playful"
    ensures |b.hashtagSets| == 3
    ensures b.hashtagSets[0].category == "Trending" && b.hashtagSets[1].category == "Niche"
            && b.hashtagSets[2].category == "Branded"
    ensures forall i :: 0 <= i < 3 ==> |b.hashtagSets[i].hashtags| == 5
    ensures IsInfix(hint, b.captions[0].caption)
  {
    var lead := CasualLead;
    var first := lead + hint + CasualTail;
    assert first[|lead|..|lead| + |hint|] == hint;
    assert OccursAt(first, hint, |lead|);
    CaptionResponse(
      [ CaptionSet(first, "Casual"),
        CaptionSet(ProfessionalCaption, "Professional"),
        CaptionSet(PlayfulCaption, "Playful") ],
      [ HashtagSet(TrendingTags, "Trending"),
        HashtagSet(NicheTags, "Niche"),
        HashtagSet(BrandedTags, "Branded") ],
      FallbackTime,
      FallbackContentType)
  }

  /** `_get_fallback_response(hint)`: the bundle as the dict the service returns. */
  function FallbackResponse(hint: string): (r: Value)
    ensures ResponseFromJson(r) == Some(FallbackBundle(hint))
    ensures KeysPresent(r)
  {
    ResponseRoundTrip(FallbackBundle(hint));
    ResponseToJson(FallbackBundle(hint))
  }

  /** Two fallbacks differ at most in the first caption's text, and there
      exactly when their hints differ. */
  lemma {:induction false} FallbackDependsOnlyOnHint(h1: string, h2: string)
    ensures var b1, b2 := FallbackBundle(h1), FallbackBundle(h2);
            && b1.captions[0].tone == b2.captions[0].tone
            && b1.captions[1..] == b2.captions[1..]
            && b1.hashtagSets == b2.hashtagSets
            && b1.postingTime == b2.postingTime
            && b1.contentType == b2.contentType
            && (b1.captions[0].caption == b2.captions[0].caption <==> h1 == h2)
  {
    var lead := CasualLead;
    var c1 := FallbackBundle(h1).captions[0].caption;
    var c2 := FallbackBundle(h2).captions[0].caption;
    if c1 == c2 {
      assert |h1| == |h2|;
      assert h1 == c1[|lead|..|lead| + |h1|];
    }
  }

  /* ---------- parsing the reply ---------- */

  /** `_parse_ai_response(raw)`: the decoded value when it passes the key check,
      otherwise (decode error, missing key, `TypeError`) the fallback for "content". */
  function Parse(decode: string -> Option<Value>, raw: string): (r: Value)
    ensures var d := decode(Clean(raw));
            if d.Some? && KeysPresent(d.value) then r == d.value else r == FallbackResponse(ContentHint)
    ensures KeysPresent(r)
  {
    var d := decode(Clean(raw));
    assert d.Some? ==> (AllPresent(d.value, RequiredKeys) == Some(true) <==> KeysPresent(d.value)) by {
      if d.Some? {
        assert forall k :: k in RequiredKeys <==> exists i :: 0 <= i < |RequiredKeys| && RequiredKeys[i] == k;
      }
    }
    if d.Some? && AllPresent(d.value, RequiredKeys) == Some(true) then d.value
    else FallbackResponse(ContentHint)
  }

  /** `generate_captions_from_text(brief)`: a raised generative-model call falls back with
      the brief itself as the hint; a reply goes through the parser. */
  function GenerateFromText(decode: string -> Option<Value>, brief: string, reply: ModelReply): (r: Value)
    ensures reply.Raised? ==> r == FallbackResponse(brief)
    ensures reply.Replied? ==> r == Parse(decode, reply.text)
    ensures KeysPresent(r)
  {
    match reply
    case Raised => FallbackResponse(brief)
    case Replied(text) => Parse(decode, text)
  }

  /** `generate_captions_from_image(path)`: a raised call falls back with the
      hint "product image". */
  function GenerateFromImage(decode: string -> Option<Value>, reply: ModelReply): (r: Value)
    ensures reply.Raised? ==> r == FallbackResponse(ImageHint)
    ensures reply.Replied? ==> r == Parse(decode, reply.text)
    ensures KeysPresent(r)
  {
    match reply
    case Raised => FallbackResponse(ImageHint)
    case Replied(text) => Parse(decode, text)
  }
}

=== FILE: ai_service_properties.dfy ===
/** What the reply cleaning and the key check guarantee across all inputs:
    the fenced segment, the case-sensitive tag, the fence/no-fence round trip,
    idempotence, and the kinds of decoded value the parser accepts. */
module AiServiceProperties {

  import opened Wrappers
  import opened Text
  import opened Json
  import opened AiService

  /* ---------- fence occurrences in joined text ---------- */

  /** A text without backticks holds no fence. */
  lemma {:induction false} NoTickNoFence(a: string)
    requires forall i :: 0 <= i < |a| ==> a[i] != '`'
    ensures !IsInfix(Fence, a)
  {
    forall i | 0 <= i <= |a| ensures !OccursAt(a, Fence, i) {
      if i + 3 <= |a| {
        assert a[i..i + 3][0] == a[i];
      }
    }
  }

  /** Joining two fence-free texts makes no fence when the seam is not all backticks. */
  lemma {:induction false} FenceFreeJoin(a: string, b: string)
    requires !IsInfix(Fence, a) && !IsInfix(Fence, b)
    requires (|a| > 0 && a[|a| - 1] != '`') || (|b| > 0 && b[0] != '`')
    ensures !IsInfix(Fence, a + b)
  {
    var s := a + b;
    assert |Fence| == 3;
    forall j | 0 <= j <= |s| ensures !OccursAt(s, Fence, j) {
      if j + 3 <= |s| {
        if j + 3 <= |a| {
          assert a[j..j + 3] == s[j..j + 3];
          assert !OccursAt(a, Fence, j);
        } else if j >= |a| {
          assert b[j - |a|..j - |a| + 3] == s[j..j + 3];
          assert !OccursAt(b, Fence, j - |a|);
        } else {
          assert s[j..j + 3][|a| - 1 - j] == a[|a| - 1] && s[j..j + 3][|a| - j] == b[0];
          assert Fence[|a| - 1 - j] == '`' && Fence[|a| - j] == '`';
        }
      }
    }
  }

  /** NextFence finds the fence at `k` when none comes earlier. */
  lemma {:induction false} NextFenceAt(s: string, from: nat, k: nat)
    requires from <= k < |s| && OccursAt(s, Fence, k)
    requires forall j :: from <= j < k ==> !OccursAt(s, Fence, j)
    ensures NextFence(s, from) == k
    decreases k - from
  {
    if from < k {
      NextFenceAt(s, from + 1, k);
    }
  }

  /* ---------- the fence branch ---------- */

  /** Trimming a reply that opens with a fenced block keeps the whole block. */
  lemma {:induction false} StripOfFenced(lead: string, body: string, rest: string)
    requires AllSpace(lead)
    ensures StartsWith(Strip(lead + Fence + body + Fence + rest), Fence + body + Fence)
  {
    var p := Fence + body + Fence;
    assert lead + Fence + body + Fence + rest == lead + (p + rest) + [];
    StripPadded(lead, p + rest, []);
    assert p[0] == '`' && p[|p| - 1] == '`';
    StripKeepsPrefix(p, rest);
  }

  /** Python's `split` ends the first segment at the closing fence of the block. */
  lemma {:induction false} FenceBodyOfBlock(t: string, body: string)
    requires StartsWith(t, Fence + body + Fence)
    requires !IsInfix(Fence, body)
    requires |body| == 0 || body[|body| - 1] != '`'
    ensures StartsWith(t, Fence) && FenceBody(t) == body
  {
    var p := Fence + body + Fence;
    assert t[..|p|] == p;
    assert |Fence| == 3;
    assert StartsWith(t, Fence) by { assert t[..3] == p[..3]; }
    var k := 3 + |body|;
    assert OccursAt(t, Fence, k) by { assert t[k..k + 3] == p[k..k + 3]; }
    forall j | 3 <= j < k ensures !OccursAt(t, Fence, j) {
      if j + 3 <= k {
        assert t[j..j + 3] == body[j - 3..j];
        assert !OccursAt(body, Fence, j - 3);
      } else if j + 3 <= |t| {
        assert t[k - 1] == body[|body| - 1];
        assert t[j..j + 3][k - 1 - j] != Fence[k - 1 - j];
      }
    }
    NextFenceAt(t, 3, k);
    assert t[3..k] == p[3..k];
  }

  /** A reply that opens with a fence yields the text between that fence and
      the next one, minus a leading `json` tag, trimmed; leading whitespace and
      anything after the closing fence are ignored. The body must not end in a
      backtick, or the closing fence would be found one character early. */
  lemma {:induction false} CleanOfFenced(lead: string, body: string, rest: string)
    requires AllSpace(lead)
    requires !IsInfix(Fence, body)
    requires |body| == 0 || body[|body| - 1] != '`'
    ensures Clean(lead + Fence + body + Fence + rest) == Strip(DropTag(body))
  {
    var raw := lead + Fence + body + Fence + rest;
    StripOfFenced(lead, body, rest);
    FenceBodyOfBlock(Strip(raw), body);
  }

  /** Without a closing fence the split's second segment runs to the end. */
  lemma {:induction false} FenceBodyUnterminated(u: string)
    requires !IsInfix(Fence, u)
    ensures StartsWith(Fence + u, Fence) && FenceBody(Fence + u) == u
  {
    var t := Fence + u;
    assert t[..3] == Fence;
    forall j | 3 <= j <= |t| ensures !OccursAt(t, Fence, j) {
      if j + 3 <= |t| {
        assert t[j..j + 3] == u[j - 3..j];
        assert !OccursAt(u, Fence, j - 3);
      }
    }
    assert t[3..] == u;
  }

  /** A reply cut off before its closing fence (say at the output-token limit):
      everything after the opening fence, minus a leading `json` tag, trimmed. */
  lemma {:induction false} CleanOfUnterminated(lead: string, u: string, trail: string)
    requires AllSpace(lead) && AllSpace(trail)
    requires Trimmed(Fence + u)
    requires !IsInfix(Fence, u)
    ensures Clean(lead + Fence + u + trail) == Strip(DropTag(u))
  {
    var t := Fence + u;
    StripUnique(lead, t, trail);
    assert lead + t + trail == lead + Fence + u + trail;
    FenceBodyUnterminated(u);
  }

  /** Text whose trimmed form starts with something other than a fence is only
      trimmed: a fence further in is kept. */
  lemma {:induction false} CleanKeepsLaterFence(p: string, q: string)
    requires |p| > 0 && !IsSpace(p[0]) && p[0] != '`'
    ensures StartsWith(Clean(p + Fence + q), p + Fence)
  {
    var pf := p + Fence;
    var raw := p + Fence + q;
    assert raw == pf + q;
    StripKeepsPrefix(pf, q);
    var t := Strip(raw);
    assert StartsWith(t, pf);
    assert !StartsWith(t, Fence) by { assert t[0] == pf[0] == p[0]; }
  }

  lemma {:induction false} JsonTagPrefix(t: string)
    ensures StartsWith("json\n" + t + "\n", Tag)
    ensures DropTag("json\n" + t + "\n") == "\n" + t + "\n"
  {
    var body := "json\n" + t + "\n";
    assert body[..4] == Tag;
    assert body[4..] == "\n" + t + "\n";
  }

  lemma {:induction false} WrappedBodyFenceFree(head: string, t: string)
    requires forall i :: 0 <= i < |head| ==> head[i] != '`'
    requires |head| > 0 && head[|head| - 1] == '\n'
    requires !IsInfix(Fence, t)
    ensures !IsInfix(Fence, head + t + "\n")
  {
    NoTickNoFence(head);
    NoTickNoFence("\n");
    FenceFreeJoin(head, t);
    FenceFreeJoin(head + t, "\n");
  }

  /** A reply free of fences is unchanged by cleaning except for trimming. */
  lemma {:induction false} CleanUnfenced(t: string)
    requires !IsInfix(Fence, t)
    ensures Clean(t) == Strip(t)
  {
    if StartsWith(Strip(t), Fence) {
      var front, back := StripMargins(t);
      assert OccursAt(Strip(t), Fence, 0);
      InfixOfMiddle(Fence, front, Strip(t), back);
    }
  }

  /** Wrapping a fence-free reply in a ```json fence does not change what the
      decoder sees. */
  lemma {:induction false} CleanWrappedTagged(t: string)
    requires !IsInfix(Fence, t)
    ensures Clean("```json\n" + t + "\n```") == Clean(t)
  {
    var body := "json\n" + t + "\n";
    WrappedBodyFenceFree("json\n", t);
    assert "```json\n" + t + "\n```" == [] + Fence + body + Fence + [];
    CleanOfFenced([], body, []);
    JsonTagPrefix(t);
    StripPadded("\n", t, "\n");
    CleanUnfenced(t);
  }

  /** The same for a fence with no language tag. */
  lemma {:induction false} CleanWrappedUntagged(t: string)
    requires !IsInfix(Fence, t)
    ensures Clean("```\n" + t + "\n```") == Clean(t)
  {
    var body := "\n" + t + "\n";
    WrappedBodyFenceFree("\n", t);
    assert "```\n" + t + "\n```" == [] + Fence + body + Fence + [];
    CleanOfFenced([], body, []);
    assert body[0] != Tag[0];
    StripPadded("\n", t, "\n");
    CleanUnfenced(t);
  }

  /** So the parser returns the same bundle for the fenced and the bare reply. */
  lemma {:induction false} ParseWrapped(decode: string -> Option<Value>, t: string)
    requires !IsInfix(Fence, t)
    ensures Parse(decode, "```json\n" + t + "\n```") == Parse(decode, t)
    ensures Parse(decode, "```\n" + t + "\n```") == Parse(decode, t)
  {
    CleanWrappedTagged(t);
    CleanWrappedUntagged(t);
  }

  /** A fenced block whose body does not open with `json` reaches the decoder trimmed but whole. */
  lemma {:induction false} CleanOfUntaggedBlock(body: string)
    requires !IsInfix(Fence, body)
    requires |body| > 0 && body[0] != 'j' && body[|body| - 1] != '`'
    ensures Clean(Fence + body + Fence) == Strip(body)
  {
    assert Fence + body + Fence == [] + Fence + body + Fence + [];
    CleanOfFenced([], body, []);
    assert body[0] != Tag[0];
  }

  /** The tag test is case-sensitive: an upper-case `JSON` tag reaches the decoder. */
  lemma {:induction false} UpperCaseTagKept(t: string)
    requires !IsInfix(Fence, t)
    ensures StartsWith(Clean("```JSON\n" + t + "\n```"), "JSON")
  {
    var tail := "\n" + t + "\n";
    var body := "JSON" + tail;
    assert body == "JSON\n" + t + "\n";
    WrappedBodyFenceFree("JSON\n", t);
    assert "```JSON\n" + t + "\n```" == Fence + body + Fence;
    CleanOfUntaggedBlock(body);
    StripKeepsPrefix("JSON", tail);
  }

  /** Cleaning an already cleaned text changes nothing. */
  lemma {:induction false} CleanIdempotent(raw: string)
    ensures Clean(Clean(raw)) == Clean(raw)
  {
    var c := Clean(raw);
    StripUnique([], c, []);
    assert [] + c + [] == c;
    if StartsWith(c, Fence) {
      assert OccursAt(c, Fence, 0);
      if !StartsWith(Strip(raw), Fence) {
        StripIdempotent(raw);
      }
    }
  }

  /* ---------- the key check ---------- */

  /** A decoded number, boolean or null makes `in` raise, so the parser falls back. */
  lemma {:induction false} ParseScalarFallsBack(decode: string -> Option<Value>, raw: string)
    requires decode(Clean(raw)).Some?
    requires var d := decode(Clean(raw)).value; !(d.JObject? || d.JArray? || d.JString?)
    ensures Parse(decode, raw) == FallbackResponse("content")
  {
    KeysPresentByKind(decode(Clean(raw)).value);
  }

  /** A decoded dict is returned as it is, nested values unchecked, exactly when
      it has the four keys. */
  lemma {:induction false} ParseObject(decode: string -> Option<Value>, raw: string, fields: map<string, Value>)
    requires decode(Clean(raw)) == Some(JObject(fields))
    ensures Parse(decode, raw) == JObject(fields) <==> forall k :: k in RequiredKeys ==> k in fields
    ensures !(forall k :: k in RequiredKeys ==> k in fields) ==> Parse(decode, raw) == FallbackResponse("content")
  {
    KeysPresentByKind(JObject(fields));
  }

  /** A decoded list is returned as it is when it holds the four key names as elements. */
  lemma {:induction false} ParseArray(decode: string -> Option<Value>, raw: string, items: seq<Value>)
    requires decode(Clean(raw)) == Some(JArray(items))
    ensures (forall k :: k in RequiredKeys ==> JString(k) in items) ==> Parse(decode, raw) == JArray(items)
    ensures !(forall k :: k in RequiredKeys ==> JString(k) in items) ==> Parse(decode, raw) == FallbackResponse("content")
  {
    KeysPresentByKind(JArray(items));
  }

  /** A decoded string is returned as it is when the four key names are substrings of it. */
  lemma {:induction false} ParseString(decode: string -> Option<Value>, raw: string, s: string)
    requires decode(Clean(raw)) == Some(JString(s))
    ensures (forall k :: k in RequiredKeys ==> IsInfix(k, s)) ==> Parse(decode, raw) == JString(s)
    ensures !(forall k :: k in RequiredKeys ==> IsInfix(k, s)) ==> Parse(decode, raw) == FallbackResponse("content")
  {
    var d := JString(s);
    KeysPresentByKind(d);
    if forall k :: k in RequiredKeys ==> IsInfix(k, s) {
      assert KeysPresent(d);
    } else {
      assert !KeysPresent(d);
    }
  }

  /** A reply the decoder rejects yields the "content" fallback. */
  lemma {:induction false} ParseUndecodable(decode: string -> Option<Value>, raw: string)
    requires decode(Clean(raw)).None?
    ensures Parse(decode, raw) == FallbackResponse("content")
    ensures IsInfix("content", FallbackBundle("content").captions[0].caption)
  {
  }
}

=== FILE: config.dfy ===
/** The fixed settings the upload checks read: the size ceiling and the two
    extension allow-lists (their environment-variable overrides are not modelled). */
module Config {

  /** Largest accepted upload, in bytes: 10 MiB. */
  const MaxFileSize: nat := 10485760

  const AllowedImageExtensions: set<string> := {"jpg", "jpeg", "png", "webp", "gif"}

  const AllowedTextExtensions: set<string> := {"txt"}
}

=== FILE: image_processor.dfy ===
/** The image description: orientation from the width/height comparison, a
    resolution tier from the pixel count, and the format, joined into one
    phrase. Decoding the image file is not modelled: its metadata arrive as an
    `Option<ImageInfo>`, `None` standing for the empty dict returned when the
    file cannot be opened. */
module ImageProcessor {

  import opened Wrappers
  import opened Text

  /** More pixels than this makes an image high-resolution. */
  const HighResolutionPixels: nat := 1000000

  datatype ImageInfo = ImageInfo(format: Option<string>, width: nat, height: nat)

  datatype Orientation = Landscape | Portrait | Square

  datatype Tier = HighResolution | StandardResolution

  /** The three parts a description is made of. */
  datatype Description = Description(orientation: Orientation, tier: Tier, format: string)

  function OrientationName(o: Orientation): string {
    match o
    case Landscape => "landscape"
    case Portrait => "portrait"
    case Square => "square"
  }

  function TierName(t: Tier): string {
    match t
    case HighResolution => "high-resolution"
    case StandardResolution => "standard-resolution"
  }

  /** Exactly one orientation applies to any pair of dimensions. */
  function OrientationOf(width: nat, height: nat): (o: Orientation)
    ensures o == Landscape <==> width > height
    ensures o == Portrait <==> width < height
    ensures o == Square <==> width == height
  {
    if width > height then Landscape
    else if width < height then Portrait
    else Square
  }

  /** The tier threshold is strict: exactly 1,000,000 pixels is standard. */
  function TierOf(width: nat, height: nat): (t: Tier)
    ensures t == HighResolution <==> width * height > HighResolutionPixels
    ensures t == StandardResolution <==> width * height <= HighResolutionPixels
  {
    if width * height > HighResolutionPixels then HighResolution else StandardResolution
  }

  /** How an f-string renders the format; PIL reports `None` for images it did not read from a file. */
  function FormatText(format: Option<string>): string {
    match format
    case Some(f) => f
    case None => "None"
  }

  /** `analyze_image_content`: "<orientation> <tier> <format> image", or just
      "image" when the metadata are missing. */
  function AnalyzeImageContent(info: Option<ImageInfo>): (d: string)
    ensures info.None? ==> d == "image"
    ensures info.Some? ==> EndsWith(d, " image")
    ensures info.Some? ==> StartsWith(d, OrientationName(OrientationOf(info.value.width, info.value.height)) + " ")
  {
    match info
    case None => "image"
    case Some(i) =>
      var o := OrientationName(OrientationOf(i.width, i.height));
      var d := o + " " + TierName(TierOf(i.width, i.height)) + " " + FormatText(i.format) + " image";
      assert d[|d| - 6..] == " image";
      assert d[..|o| + 1] == o + " ";
      d
  }

  /* ---------- reading a description back ---------- */

  /** Splits at the first space. */
  function SplitAtSpace(s: string): (r: Option<(string, string)>)
    ensures r.None? <==> ' ' !in s
    ensures r.Some? ==> s == r.value.0 + " " + r.value.1 && ' ' !in r.value.0
  {
    if s == [] then None
    else if s[0] == ' ' then
      assert s == [] + " " + s[1..];
      Some(([], s[1..]))
    else match SplitAtSpace(s[1..])
      case None => None
      case Some((w, rest)) =>
        assert s == [s[0]] + s[1..];
        Some(([s[0]] + w, rest))
  }

  function OrientationFromName(w: string): (r: Option<Orientation>)
    ensures r.Some? ==> OrientationName(r.value) == w
  {
    if w == "landscape" then Some(Landscape)
    else if w == "portrait" then Some(Portrait)
    else if w == "square" then Some(Square)
    else None
  }

  function TierFromName(w: string): (r: Option<Tier>)
    ensures r.Some? ==> TierName(r.value) == w
  {
    if w == "high-resolution" then Some(HighResolution)
    else if w == "standard-resolution" then Some(StandardResolution)
    else None
  }

  /** Recovers orientation, tier and format from a description. */
  function ParseDescription(d: string): (r: Option<Description>)
    ensures r.Some? ==> d == OrientationName(r.value.orientation) + " " + TierName(r.value.tier) + " "
                             + r.value.format + " image"
  {
    if !EndsWith(d, " image") then None
    else
      var core := d[..|d| - 6];
      assert d == core + " image";
      match SplitAtSpace(core)
      case None => None
      case Some((w1, rest)) =>
        match OrientationFromName(w1)
        case None => None
        case Some(o) =>
          match SplitAtSpace(rest)
          case None => None
          case Some((w2, format)) =>
            match TierFromName(w2)
            case None => None
            case Some(t) =>
              assert core == OrientationName(o) + " " + (TierName(t) + " " + format);
              Reassemble(OrientationName(o), TierName(t), format);
              Some(Description(o, t, format))
  }

  /** Re-associating a description's words, kept apart from the parser's case split. */
  lemma {:induction false} Reassemble(o: string, t: string, f: string)
    ensures (o + " " + (t + " " + f)) + " image" == o + " " + t + " " + f + " image"
  {
  }

  lemma {:induction false} SplitAtSpaceOf(w: string, rest: string)
    requires ' ' !in w
    ensures SplitAtSpace(w + " " + rest) == Some((w, rest))
  {
    if w != [] {
      SplitAtSpaceOf(w[1..], rest);
      assert (w + " " + rest)[1..] == w[1..] + " " + rest;
      assert [w[0]] + w[1..] == w;
    }
  }

  /** The description of present metadata reads back as its orientation, tier
      and format; so two images get the same description exactly when these
      three agree. */
  lemma {:induction false} DescriptionRoundTrip(info: ImageInfo)
    ensures ParseDescription(AnalyzeImageContent(Some(info)))
            == Some(Description(OrientationOf(info.width, info.height), TierOf(info.width, info.height),
                                FormatText(info.format)))
  {
    var o := OrientationOf(info.width, info.height);
    var t := TierOf(info.width, info.height);
    var f := FormatText(info.format);
    var d := AnalyzeImageContent(Some(info));
    var core := OrientationName(o) + " " + TierName(t) + " " + f;
    assert d == core + " image";
    assert d[..|d| - 6] == core;
    assert ' ' !in OrientationName(o);
    assert ' ' !in TierName(t);
    assert core == OrientationName(o) + " " + (TierName(t) + " " + f);
    SplitAtSpaceOf(OrientationName(o), TierName(t) + " " + f);
    SplitAtSpaceOf(TierName(t), f);
  }

  /** The missing-metadata answer cannot be mistaken for a real description. */
  lemma {:induction false} MissingMetadataDistinct(info: ImageInfo)
    ensures ParseDescription(AnalyzeImageContent(None)) == None
    ensures AnalyzeImageContent(None) != AnalyzeImageContent(Some(info))
  {
    assert !EndsWith("image", " image");
  }
}

=== FILE: json.dfy ===
/** The values `json.loads` produces: `None`, booleans, numbers, strings,
    lists and dicts. Decoding itself is not modelled: callers receive the
    decoder as a parameter of type `string -> Option<Value>`. */
module Json {

  datatype Value =
    | JNull
    | JBool(b: bool)
    | JNumber(literal: string)   // an int or float; only its kind matters here
    | JString(s: string)
    | JArray(items: seq<Value>)
    | JObject(fields: map<string, Value>)
}

=== FILE: routes.dfy ===
/** The three generation endpoints as pure functions from their inputs to the
    HTTP outcome. File-system effects, the image decoder and the call to the
    generative model are inputs: the result of writing the temporary file,
    whether the image verifies, and the generative model's reply. The run record of the image endpoint says
    whether the temporary file was created and whether it still exists when
    the handler returns. */
module Routes {

  import opened Wrappers
  import opened Text
  import opened Json
  import Config
  import opened Schemas
  import opened AiService

  /** Shortest accepted text-file content, counted after `strip()`. */
  const MinTextLength: nat := 5

  /* ---------- the extension check ---------- */

  /** `filename.rsplit('.', 1)[1]`: the text after the last dot, if there is a dot. */
  function Extension(filename: string): (r: Option<string>)
    ensures r.None? <==> '.' !in filename
    ensures r.Some? ==> '.' !in r.value && |r.value| < |filename|
    ensures r.Some? ==> filename == filename[..|filename| - |r.value| - 1] + "." + r.value
  {
    if filename == [] then None
    else
      var last := filename[|filename| - 1];
      var init := filename[..|filename| - 1];
      assert filename == init + [last];
      if last == '.' then Some([])
      else match Extension(init)
        case None => None
        case Some(e) =>
          assert init == init[..|init| - |e| - 1] + "." + e;
          Some(e + [last])
  }

  /** The extension of `p.e` is `e` whenever `e` has no dot, whatever `p` holds. */
  lemma {:induction false} ExtensionOfJoin(p: string, e: string)
    requires '.' !in e
    ensures Extension(p + "." + e) == Some(e)
  {
    var s := p + "." + e;
    if e == [] {
      assert s[|s| - 1] == '.';
    } else {
      var init := e[..|e| - 1];
      var last := e[|e| - 1];
      assert e == init + [last];
      assert '.' !in init && last != '.';
      ExtensionOfJoin(p, init);
      assert s == (p + "." + init) + [last];
      ExtensionSnoc(p + "." + init, last);
    }
  }

  /** Appending a character other than a dot extends the extension by it. */
  lemma {:induction false} ExtensionSnoc(s: string, c: char)
    requires c != '.' && Extension(s).Some?
    ensures Extension(s + [c]) == Some(Extension(s).value + [c])
  {
    var t := s + [c];
    assert t[..|t| - 1] == s;
  }

  /** `allowed_file(filename, file_type)`. */
  function AllowedFile(filename: string, fileType: string): (ok: bool)
    ensures ok ==> '.' in filename
    ensures ok ==> fileType == "image" || fileType == "text"
    ensures ok ==> Lower(Extension(filename).value) in Config.AllowedImageExtensions + Config.AllowedTextExtensions
  {
    match Extension(filename)
    case None => false
    case Some(e) =>
      var ext := Lower(e);
      if fileType == "image" then ext in Config.AllowedImageExtensions
      else if fileType == "text" then ext in Config.AllowedTextExtensions
      else false
  }

  /** For a name `p.e` with `e` free of dots, acceptance depends on `e` alone:
      lower-cased, it must be in the allow-list of the requested kind. */
  lemma {:induction false} AllowedFileOf(p: string, e: string, fileType: string)
    requires '.' !in e
    ensures AllowedFile(p + "." + e, fileType)
            <==> ((fileType == "image" && Lower(e) in Config.AllowedImageExtensions)
                  || (fileType == "text" && Lower(e) in Config.AllowedTextExtensions))
  {
    ExtensionOfJoin(p, e);
  }

  /** A name ending in a dot has an empty extension and is never accepted. */
  lemma {:induction false} TrailingDotRejected(p: string, fileType: string)
    ensures !AllowedFile(p + ".", fileType)
  {
    assert p + "." == p + "." + [];
    ExtensionOfJoin(p, []);
  }

  /** The check ignores the case of the extension. */
  lemma {:induction false} AllowedFileIgnoresCase(p: string, e: string, fileType: string)
    requires '.' !in e
    ensures AllowedFile(p + "." + e, fileType) == AllowedFile(p + "." + Lower(e), fileType)
  {
    assert '.' !in Lower(e);
    assert Lower(Lower(e)) == Lower(e);
    AllowedFileOf(p, e, fileType);
    AllowedFileOf(p, Lower(e), fileType);
  }

  /* ---------- outcomes ---------- */

  datatype RejectReason = NoFileSelected | ExtensionNotAllowed | InvalidImage | TextTooShort

  /** What an endpoint answers. */
  datatype Outcome =
    | Ok(body: CaptionResponse)
    | BadRequest(reason: RejectReason)
    | PayloadTooLarge
    | Unprocessable      // the request body failed field validation
    | ServerError

  /** `CaptionResponse(**result)`: the service's value becomes the response
      body, or validation raises and the handler answers 500. */
  function Respond(result: Value): (o: Outcome)
    ensures o.Ok? || o == ServerError
    ensures o.Ok? <==> ResponseFromJson(result).Some?
    ensures o.Ok? ==> ResponseFromJson(result) == Some(o.body)
  {
    match ResponseFromJson(result)
    case Some(b) => Ok(b)
    case None => ServerError
  }

  /* ---------- the image endpoint ---------- */

  /** What happened when the upload was saved: saved, `open` failed (no file
      created), or `write` failed after `open` created the file. */
  datatype WriteResult = Stored | OpenFailed | WriteFailed

  datatype ImageRun = ImageRun(outcome: Outcome, fileWritten: bool, fileRemains: bool)

  /** `generate_from_image`, as written: checks in order (name, extension,
      size), saves the upload, verifies it as an image, calls the generative model, and
      removes the temporary file on the paths the handler covers. A failing
      `write` escapes to the generic 500 handler with the file still on disk. */
  function HandleImageUpload(decode: string -> Option<Value>, filename: string, size: nat,
                             write: WriteResult, imageValid: bool, reply: ModelReply): (run: ImageRun)
    ensures run.outcome == BadRequest(NoFileSelected) <==> filename == ""
    ensures run.outcome == BadRequest(ExtensionNotAllowed) <==> filename != "" && !AllowedFile(filename, "image")
    ensures run.outcome == PayloadTooLarge
            <==> filename != "" && AllowedFile(filename, "image") && size > Config.MaxFileSize
    ensures run.fileWritten
            <==> filename != "" && AllowedFile(filename, "image") && size <= Config.MaxFileSize && write != OpenFailed
    ensures run.outcome == BadRequest(InvalidImage) <==> run.fileWritten && write == Stored && !imageValid
    ensures run.fileRemains <==> run.fileWritten && write == WriteFailed
    ensures run.outcome.Ok? ==> run.fileWritten && write == Stored && imageValid
                                && ResponseFromJson(GenerateFromImage(decode, reply)) == Some(run.outcome.body)
    ensures filename != "" && AllowedFile(filename, "image") && size <= Config.MaxFileSize && write != Stored
            ==> run.outcome == ServerError
    ensures (filename != "" && AllowedFile(filename, "image") && size <= Config.MaxFileSize && write == Stored
             && imageValid) ==> run.outcome == Respond(GenerateFromImage(decode, reply))
  {
    if filename == "" then ImageRun(BadRequest(NoFileSelected), false, false)
    else if !AllowedFile(filename, "image") then ImageRun(BadRequest(ExtensionNotAllowed), false, false)
    else if size > Config.MaxFileSize then ImageRun(PayloadTooLarge, false, false)
    else match write
      case OpenFailed => ImageRun(ServerError, false, false)
      case WriteFailed => ImageRun(ServerError, true, true)
      case Stored =>
        if !imageValid then ImageRun(BadRequest(InvalidImage), true, false)
        else ImageRun(Respond(GenerateFromImage(decode, reply)), true, false)
  }

  /** The image endpoint with the save inside the cleanup scope: the same
      answers, and no exit leaves the temporary file behind. */
  function HandleImageUploadGuarded(decode: string -> Option<Value>, filename: string, size: nat,
                                    write: WriteResult, imageValid: bool, reply: ModelReply): (run: ImageRun)
    ensures !run.fileRemains
    ensures run.outcome == HandleImageUpload(decode, filename, size, write, imageValid, reply).outcome
    ensures run.fileWritten == HandleImageUpload(decode, filename, size, write, imageValid, reply).fileWritten
  {
    if filename == "" then ImageRun(BadRequest(NoFileSelected), false, false)
    else if !AllowedFile(filename, "image") then ImageRun(BadRequest(ExtensionNotAllowed), false, false)
    else if size > Config.MaxFileSize then ImageRun(PayloadTooLarge, false, false)
    else match write
      case OpenFailed => ImageRun(ServerError, false, false)
      case WriteFailed => ImageRun(ServerError, true, false)
      case Stored =>
        if !imageValid then ImageRun(BadRequest(InvalidImage), true, false)
        else ImageRun(Respond(GenerateFromImage(decode, reply)), true, false)
  }

  /* ---------- the text endpoints ---------- */

  /** `generate_from_text`: field validation of the brief (422 when it fails),
      then generation. */
  function HandleTextBrief(decode: string -> Option<Value>, brief: string, reply: ModelReply): (o: Outcome)
    ensures o == Unprocessable <==> !(1 <= |brief| <= MaxBriefLength)
    ensures o != Unprocessable ==> o == Respond(GenerateFromText(decode, brief, reply))
  {
    match ValidateBrief(brief)
    case None => Unprocessable
    case Some(request) => Respond(GenerateFromText(decode, request.textBrief, reply))
  }

  /** `generate_from_file`: name and extension checks, UTF-8 decoding (`None`
      when the bytes do not decode, which ends in 500), a minimum of five
      characters after stripping, then generation with the whole text as brief.
      There is no size ceiling and no 1000-character limit on this path. */
  function HandleTextFile(decode: string -> Option<Value>, filename: string, content: Option<string>,
                          reply: ModelReply): (o: Outcome)
    ensures o == BadRequest(NoFileSelected) <==> filename == ""
    ensures o == BadRequest(ExtensionNotAllowed) <==> filename != "" && !AllowedFile(filename, "text")
    ensures o == BadRequest(TextTooShort)
            <==> filename != "" && AllowedFile(filename, "text") && content.Some?
                 && |Strip(content.value)| < MinTextLength
    ensures o != PayloadTooLarge && o != Unprocessable
    ensures o.Ok? ==> content.Some? && |Strip(content.value)| >= MinTextLength
                      && ResponseFromJson(GenerateFromText(decode, content.value, reply)) == Some(o.body)
    ensures filename != "" && AllowedFile(filename, "text") && content.None? ==> o == ServerError
    ensures filename != "" && AllowedFile(filename, "text") && content.Some? && |Strip(content.value)| >= MinTextLength
            ==> o == Respond(GenerateFromText(decode, content.value, reply))
  {
    if filename == "" then BadRequest(NoFileSelected)
    else if !AllowedFile(filename, "text") then BadRequest(ExtensionNotAllowed)
    else match content
      case None => ServerError
      case Some(text) =>
        if |Strip(text)| < MinTextLength then BadRequest(TextTooShort)
        else Respond(GenerateFromText(decode, text, reply))
  }
}

=== FILE: routes_properties.dfy ===
/** End-to-end consequences for the endpoints: generative-model failures become 200
    answers carrying the fallback, the size ceiling is inclusive, concrete
    rejections, the lenient key check letting a reply through to a 500, and
    the temporary file left behind by a failed write. */
module RoutesProperties {

  import opened Wrappers
  import opened Text
  import opened Json
  import Config
  import opened Schemas
  import opened AiService
  import opened Routes

  /** Any `p.txt` is an acceptable text-file name. */
  lemma {:induction false} TextNameAccepted(p: string)
    ensures AllowedFile(p + ".txt", "text")
  {
    assert p + ".txt" == p + "." + "txt";
    AllowedFileOf(p, "txt", "text");
    assert Lower("txt") == "txt";
  }

  /** An upload of exactly the ceiling passes the size check; one byte more does not. */
  lemma {:induction false} SizeCeilingInclusive(decode: string -> Option<Value>, filename: string, write: WriteResult,
                             imageValid: bool, reply: ModelReply)
    requires filename != "" && AllowedFile(filename, "image")
    ensures HandleImageUpload(decode, filename, Config.MaxFileSize, write, imageValid, reply).outcome != PayloadTooLarge
    ensures HandleImageUpload(decode, filename, Config.MaxFileSize + 1, write, imageValid, reply).outcome == PayloadTooLarge
    ensures !HandleImageUpload(decode, filename, Config.MaxFileSize + 1, write, imageValid, reply).fileWritten
  {
  }

  /** A `.bmp` upload is refused before its size is looked at. */
  lemma {:induction false} BitmapRejected(decode: string -> Option<Value>, p: string, size: nat, write: WriteResult,
                                          imageValid: bool, reply: ModelReply)
    ensures HandleImageUpload(decode, p + ".bmp", size, write, imageValid, reply) == ImageRun(BadRequest(ExtensionNotAllowed), false, false)
  {
    assert p + ".bmp" == p + "." + "bmp";
    AllowedFileOf(p, "bmp", "image");
    assert Lower("bmp") == "bmp";
  }

  /** When the generative-model call raises, a valid image upload still answers 200 with
      the fallback for "product image". */
  lemma {:induction false} ImageModelFailure(decode: string -> Option<Value>, filename: string, size: nat)
    requires filename != "" && AllowedFile(filename, "image") && size <= Config.MaxFileSize
    ensures HandleImageUpload(decode, filename, size, Stored, true, Raised).outcome
            == Ok(FallbackBundle("product image"))
  {
  }

  /** When the generative-model call raises, a valid brief answers 200 with the fallback
      whose first caption quotes the brief. */
  lemma {:induction false} BriefModelFailure(decode: string -> Option<Value>, brief: string)
    requires 1 <= |brief| <= MaxBriefLength
    ensures HandleTextBrief(decode, brief, Raised) == Ok(FallbackBundle(brief))
    ensures IsInfix(brief, HandleTextBrief(decode, brief, Raised).body.captions[0].caption)
  {
  }

  /** The same for a text file: the hint is the file's whole text, unstripped. */
  lemma {:induction false} TextFileModelFailure(decode: string -> Option<Value>, p: string, text: string)
    requires |Strip(text)| >= MinTextLength
    ensures HandleTextFile(decode, p + ".txt", Some(text), Raised) == Ok(FallbackBundle(text))
  {
    TextNameAccepted(p);
    assert GenerateFromText(decode, text, Raised) == FallbackResponse(text);
  }

  /** A reply the decoder cannot read answers 200 with the "content" fallback. */
  lemma {:induction false} UndecodableReply(decode: string -> Option<Value>, brief: string, raw: string)
    requires 1 <= |brief| <= MaxBriefLength
    requires decode(Clean(raw)).None?
    ensures HandleTextBrief(decode, brief, Replied(raw)) == Ok(FallbackBundle("content"))
  {
  }

  /** A reply that decodes to a well-formed bundle is answered as it is. */
  lemma {:induction false} WellFormedReply(decode: string -> Option<Value>, brief: string, raw: string, r: CaptionResponse)
    requires 1 <= |brief| <= MaxBriefLength
    requires decode(Clean(raw)) == Some(ResponseToJson(r))
    ensures HandleTextBrief(decode, brief, Replied(raw)) == Ok(r)
  {
    var v := ResponseToJson(r);
    assert KeysPresent(v) by { ResponseFields(r); }
    assert Respond(v) == Ok(r) by { ResponseRoundTrip(r); }
    assert Parse(decode, raw) == v;
    assert GenerateFromText(decode, brief, Replied(raw)) == v;
  }

  /** Whitespace around a short text does not help it past the minimum:
      the length is counted after stripping. */
  lemma {:induction false} PaddedShortTextRejected(decode: string -> Option<Value>, p: string, front: string,
                                                   core: string, back: string, reply: ModelReply)
    requires AllSpace(front) && AllSpace(back) && Trimmed(core) && |core| < MinTextLength
    ensures HandleTextFile(decode, p + ".txt", Some(front + core + back), reply) == BadRequest(TextTooShort)
  {
    StripUnique(front, core, back);
    TextNameAccepted(p);
  }

  /** The key check only looks at the top level and accepts a list holding the
      four names, so such a reply is passed on and fails response validation:
      the caller gets a 500, not the fallback. */
  lemma {:induction false} KeyNamesListReachesServerError(brief: string, raw: string)
    requires 1 <= |brief| <= MaxBriefLength
    ensures var names := JArray([JString("captions"), JString("hashtag_sets"),
                                 JString("posting_time"), JString("content_type")]);
            var decode := (s: string) => Some(names);
            && Parse(decode, raw) == names
            && HandleTextBrief(decode, brief, Replied(raw)) == ServerError
  {
    var names := JArray([JString("captions"), JString("hashtag_sets"),
                         JString("posting_time"), JString("content_type")]);
    assert KeysPresent(names);
  }

  /** Likewise for a dict whose four keys hold `null`: nested shapes are not checked. */
  lemma {:induction false} NullFieldsReachServerError(brief: string, raw: string)
    requires 1 <= |brief| <= MaxBriefLength
    ensures var nulls := JObject(map["captions" := JNull, "hashtag_sets" := JNull,
                                     "posting_time" := JNull, "content_type" := JNull]);
            var decode := (s: string) => Some(nulls);
            && Parse(decode, raw) == nulls
            && HandleTextBrief(decode, brief, Replied(raw)) == ServerError
  {
    var nulls := JObject(map["captions" := JNull, "hashtag_sets" := JNull,
                             "posting_time" := JNull, "content_type" := JNull]);
    assert KeysPresent(nulls);
  }

  /** A failed `write` after `open` created the file: the handler answers 500
      and the file is still there, whereas the guarded handler removes it. */
  lemma {:induction false} WriteFailureLeavesFile(decode: string -> Option<Value>, p: string, size: nat,
                                                  imageValid: bool, reply: ModelReply)
    requires size <= Config.MaxFileSize
    ensures HandleImageUpload(decode, p + ".png", size, WriteFailed, imageValid, reply) == ImageRun(ServerError, true, true)
    ensures HandleImageUploadGuarded(decode, p + ".png", size, WriteFailed, imageValid, reply) == ImageRun(ServerError, true, false)
  {
    assert p + ".png" == p + "." + "png";
    AllowedFileOf(p, "png", "image");
    assert Lower("png") == "png";
  }
}

=== FILE: schemas.dfy ===
/** The request and response records of the caption service and the
    validation that turns a decoded JSON value into a response record, as
    `CaptionResponse(**result)` does: every declared field must be present
    with the declared kind, undeclared keys are ignored, and no list length
    or tone value is constrained. */
module Schemas {

  import opened Wrappers
  import opened Json

  const MaxBriefLength: nat := 1000

  /** The body of the text-brief endpoint. */
  datatype TextBriefRequest = TextBriefRequest(textBrief: string)

  /** Field validation of the text brief: between 1 and 1000 characters. */
  function ValidateBrief(brief: string): (r: Option<TextBriefRequest>)
    ensures r.Some? <==> 1 <= |brief| <= MaxBriefLength
    ensures r.Some? ==> r.value.textBrief == brief
  {
    if 1 <= |brief| <= MaxBriefLength then Some(TextBriefRequest(brief)) else None
  }

  datatype CaptionSet = CaptionSet(caption: string, tone: string)

  datatype HashtagSet = HashtagSet(hashtags: seq<string>, category: string)

  datatype PostingTime = PostingTime(time: string, day: string, reason: string)

  datatype CaptionResponse = CaptionResponse(
    captions: seq<CaptionSet>,
    hashtagSets: seq<HashtagSet>,
    postingTime: PostingTime,
    contentType: string)

  /* ---------- encoding a record as the dict the service returns ---------- */

  function CaptionSetToJson(c: CaptionSet): Value {
    JObject(map["caption" := JString(c.caption), "tone" := JString(c.tone)])
  }

  function StringsToJson(ss: seq<string>): (r: seq<Value>)
    ensures |r| == |ss|
  {
    if ss == [] then [] else [JString(ss[0])] + StringsToJson(ss[1..])
  }

  function HashtagSetToJson(h: HashtagSet): Value {
    JObject(map["hashtags" := JArray(StringsToJson(h.hashtags)), "category" := JString(h.category)])
  }

  function PostingTimeToJson(p: PostingTime): Value {
    JObject(map["time" := JString(p.time), "day" := JString(p.day), "reason" := JString(p.reason)])
  }

  function CaptionSetsToJson(cs: seq<CaptionSet>): (r: seq<Value>)
    ensures |r| == |cs|
  {
    if cs == [] then [] else [CaptionSetToJson(cs[0])] + CaptionSetsToJson(cs[1..])
  }

  function HashtagSetsToJson(hs: seq<HashtagSet>): (r: seq<Value>)
    ensures |r| == |hs|
  {
    if hs == [] then [] else [HashtagSetToJson(hs[0])] + HashtagSetsToJson(hs[1..])
  }

  function ResponseToJson(r: CaptionResponse): Value {
    JObject(map[
      "captions" := JArray(CaptionSetsToJson(r.captions)),
      "hashtag_sets" := JArray(HashtagSetsToJson(r.hashtagSets)),
      "posting_time" := PostingTimeToJson(r.postingTime),
      "content_type" := JString(r.contentType)])
  }

  /* ---------- validating a decoded value against the schema ---------- */

  /** A `str` field: present and holding a JSON string. */
  function StringField(fields: map<string, Value>, key: string): (r: Option<string>)
    ensures r.Some? <==> key in fields && fields[key].JString?
    ensures r.Some? ==> fields[key] == JString(r.value)
  {
    if key in fields && fields[key].JString? then Some(fields[key].s) else None
  }

  /** A `List[str]`: every element must be a JSON string. */
  function StringsFromJson(items: seq<Value>): (r: Option<seq<string>>)
    ensures r.Some? <==> forall i :: 0 <= i < |items| ==> items[i].JString?
    ensures r.Some? ==> |r.value| == |items|
    ensures r.Some? ==> forall i :: 0 <= i < |items| ==> items[i] == JString(r.value[i])
  {
    if items == [] then Some([])
    else if !items[0].JString? then None
    else match StringsFromJson(items[1..])
      case None => None
      case Some(rest) => Some([items[0].s] + rest)
  }

  /** A `CaptionSet`: a dict whose `caption` and `tone` are strings; other keys are ignored. */
  function CaptionSetFromJson(v: Value): (r: Option<CaptionSet>)
    ensures r.Some? ==> v.JObject? && "caption" in v.fields && "tone" in v.fields
    ensures r.Some? <==> v.JObject? && StringField(v.fields, "caption").Some? && StringField(v.fields, "tone").Some?
    ensures r.Some? ==> v.fields["caption"] == JString(r.value.caption) && v.fields["tone"] == JString(r.value.tone)
  {
    if !v.JObject? then None
    else match (StringField(v.fields, "caption"), StringField(v.fields, "tone"))
      case (Some(c), Some(t)) => Some(CaptionSet(c, t))
      case _ => None
  }

  /** A `HashtagSet`: a dict whose `hashtags` is a list of strings (of any
      length) and whose `category` is a string. */
  function HashtagSetFromJson(v: Value): (r: Option<HashtagSet>)
    ensures r.Some? ==> v.JObject? && "hashtags" in v.fields && v.fields["hashtags"].JArray?
    ensures r.Some? ==> |r.value.hashtags| == |v.fields["hashtags"].items|
    ensures r.Some? <==> v.JObject? && "hashtags" in v.fields && v.fields["hashtags"].JArray?
                         && (forall i :: 0 <= i < |v.fields["hashtags"].items| ==> v.fields["hashtags"].items[i].JString?)
                         && StringField(v.fields, "category").Some?
    ensures r.Some? ==> (forall i :: 0 <= i < |r.value.hashtags| ==> v.fields["hashtags"].items[i] == JString(r.value.hashtags[i]))
                        && v.fields["category"] == JString(r.value.category)
  {
    if !v.JObject? || "hashtags" !in v.fields || !v.fields["hashtags"].JArray? then None
    else match (StringsFromJson(v.fields["hashtags"].items), StringField(v.fields, "category"))
      case (Some(tags), Some(c)) => Some(HashtagSet(tags, c))
      case _ => None
  }

  /** A `PostingTime`: a dict whose `time`, `day` and `reason` are strings. */
  function PostingTimeFromJson(v: Value): (r: Option<PostingTime>)
    ensures r.Some? ==> v.JObject? && "time" in v.fields && "day" in v.fields && "reason" in v.fields
    ensures r.Some? <==> v.JObject? && StringField(v.fields, "time").Some? && StringField(v.fields, "day").Some?
                         && StringField(v.fields, "reason").Some?
    ensures r.Some? ==> v.fields["time"] == JString(r.value.time) && v.fields["day"] == JString(r.value.day)
                        && v.fields["reason"] == JString(r.value.reason)
  {
    if !v.JObject? then None
    else match (StringField(v.fields, "time"), StringField(v.fields, "day"), StringField(v.fields, "reason"))
      case (Some(t), Some(d), Some(why)) => Some(PostingTime(t, d, why))
      case _ => None
  }

  /** A `List[CaptionSet]`: every element must validate; the length is free. */
  function CaptionSetsFromJson(items: seq<Value>): (r: Option<seq<CaptionSet>>)
    ensures r.Some? <==> forall i :: 0 <= i < |items| ==> CaptionSetFromJson(items[i]).Some?
    ensures r.Some? ==> |r.value| == |items|
    ensures r.Some? ==> forall i :: 0 <= i < |items| ==> CaptionSetFromJson(items[i]) == Some(r.value[i])
  {
    if items == [] then Some([])
    else match (CaptionSetFromJson(items[0]), CaptionSetsFromJson(items[1..]))
      case (Some(c), Some(rest)) =>
        assert forall i :: 1 <= i < |items| ==> items[i] == items[1..][i - 1];
        Some([c] + rest)
      case (None, _) => None
      case (_, None) =>
        assert forall i :: 1 <= i < |items| ==> items[i] == items[1..][i - 1];
        None
  }

  /** A `List[HashtagSet]`: every element must validate; the length is free. */
  function HashtagSetsFromJson(items: seq<Value>): (r: Option<seq<HashtagSet>>)
    ensures r.Some? <==> forall i :: 0 <= i < |items| ==> HashtagSetFromJson(items[i]).Some?
    ensures r.Some? ==> |r.value| == |items|
    ensures r.Some? ==> forall i :: 0 <= i < |items| ==> HashtagSetFromJson(items[i]) == Some(r.value[i])
  {
    if items == [] then Some([])
    else match (HashtagSetFromJson(items[0]), HashtagSetsFromJson(items[1..]))
      case (Some(h), Some(rest)) =>
        assert forall i :: 1 <= i < |items| ==> items[i] == items[1..][i - 1];
        Some([h] + rest)
      case (None, _) => None
      case (_, None) =>
        assert forall i :: 1 <= i < |items| ==> items[i] == items[1..][i - 1];
        None
  }

  /** `CaptionResponse(**result)`: `result` must be a dict (anything else raises
      before validation starts) holding all four fields with their declared kinds. */
  function ResponseFromJson(v: Value): (r: Option<CaptionResponse>)
    ensures r.Some? ==> v.JObject?
    ensures r.Some? ==> "captions" in v.fields && "hashtag_sets" in v.fields
                        && "posting_time" in v.fields && "content_type" in v.fields
    ensures r.Some? ==> v.fields["captions"].JArray? && |r.value.captions| == |v.fields["captions"].items|
    ensures r.Some? ==> v.fields["hashtag_sets"].JArray? && |r.value.hashtagSets| == |v.fields["hashtag_sets"].items|
    ensures r.Some? ==> v.fields["content_type"] == JString(r.value.contentType)
    ensures r.Some? <==> v.JObject? && "captions" in v.fields && v.fields["captions"].JArray?
                         && "hashtag_sets" in v.fields && v.fields["hashtag_sets"].JArray?
                         && "posting_time" in v.fields
                         && CaptionSetsFromJson(v.fields["captions"].items).Some?
                         && HashtagSetsFromJson(v.fields["hashtag_sets"].items).Some?
                         && PostingTimeFromJson(v.fields["posting_time"]).Some?
                         && StringField(v.fields, "content_type").Some?
    ensures r.Some? ==> CaptionSetsFromJson(v.fields["captions"].items) == Some(r.value.captions)
                        && HashtagSetsFromJson(v.fields["hashtag_sets"].items) == Some(r.value.hashtagSets)
                        && PostingTimeFromJson(v.fields["posting_time"]) == Some(r.value.postingTime)
  {
    if !v.JObject? then None
    else
      var f := v.fields;
      if "captions" !in f || !f["captions"].JArray? || "hashtag_sets" !in f || !f["hashtag_sets"].JArray?
         || "posting_time" !in f then None
      else match (CaptionSetsFromJson(f["captions"].items), HashtagSetsFromJson(f["hashtag_sets"].items),
                  PostingTimeFromJson(f["posting_time"]), StringField(f, "content_type"))
        case (Some(cs), Some(hs), Some(pt), Some(ct)) => Some(CaptionResponse(cs, hs, pt, ct))
        case _ => None
  }

  /* ---------- encoding and validation are inverse ---------- */

  lemma {:induction false} StringsRoundTrip(ss: seq<string>)
    ensures StringsFromJson(StringsToJson(ss)) == Some(ss)
  {
    if ss != [] {
      StringsRoundTrip(ss[1..]);
      assert StringsToJson(ss)[1..] == StringsToJson(ss[1..]);
      assert [ss[0]] + ss[1..] == ss;
    }
  }

  lemma {:induction false} CaptionSetRoundTrip(c: CaptionSet)
    ensures CaptionSetFromJson(CaptionSetToJson(c)) == Some(c)
  {
  }

  lemma {:induction false} PostingTimeRoundTrip(p: PostingTime)
    ensures PostingTimeFromJson(PostingTimeToJson(p)) == Some(p)
  {
  }

  lemma {:induction false} CaptionSetsRoundTrip(cs: seq<CaptionSet>)
    ensures CaptionSetsFromJson(CaptionSetsToJson(cs)) == Some(cs)
  {
    if cs != [] {
      CaptionSetsRoundTrip(cs[1..]);
      var items := CaptionSetsToJson(cs);
      assert items[1..] == CaptionSetsToJson(cs[1..]);
      CaptionSetRoundTrip(cs[0]);
      assert [cs[0]] + cs[1..] == cs;
    }
  }

  lemma {:induction false} HashtagSetRoundTrip(h: HashtagSet)
    ensures HashtagSetFromJson(HashtagSetToJson(h)) == Some(h)
  {
    StringsRoundTrip(h.hashtags);
  }

  lemma {:induction false} HashtagSetsRoundTrip(hs: seq<HashtagSet>)
    ensures HashtagSetsFromJson(HashtagSetsToJson(hs)) == Some(hs)
  {
    if hs != [] {
      HashtagSetsRoundTrip(hs[1..]);
      var items := HashtagSetsToJson(hs);
      assert items[1..] == HashtagSetsToJson(hs[1..]);
      HashtagSetRoundTrip(hs[0]);
      assert [hs[0]] + hs[1..] == hs;
    }
  }

  /** Every response record, whatever its list lengths, tones and categories,
      is accepted back unchanged once encoded as a dict. */
  lemma {:induction false} ResponseRoundTrip(r: CaptionResponse)
    ensures ResponseFromJson(ResponseToJson(r)) == Some(r)
  {
    CaptionSetsRoundTrip(r.captions);
    HashtagSetsRoundTrip(r.hashtagSets);
    PostingTimeRoundTrip(r.postingTime);
    ResponseFields(r);
  }

  /** The four declared keys of an encoded response, looked up. */
  lemma {:induction false} ResponseFields(r: CaptionResponse)
    ensures var f := ResponseToJson(r).fields;
            && "captions" in f && f["captions"] == JArray(CaptionSetsToJson(r.captions))
            && "hashtag_sets" in f && f["hashtag_sets"] == JArray(HashtagSetsToJson(r.hashtagSets))
            && "posting_time" in f && f["posting_time"] == PostingTimeToJson(r.postingTime)
            && StringField(f, "content_type") == Some(r.contentType)
  {
  }

  /** Validation ignores keys the schema does not declare. */
  lemma {:induction false} ExtraKeysIgnored(r: CaptionResponse, key: string, extra: Value)
    requires key !in {"captions", "hashtag_sets", "posting_time", "content_type"}
    ensures ResponseFromJson(JObject(ResponseToJson(r).fields[key := extra])) == Some(r)
  {
    ResponseRoundTrip(r);
    var f := ResponseToJson(r).fields;
    var g := f[key := extra];
    assert g["captions"] == f["captions"] && g["hashtag_sets"] == f["hashtag_sets"];
    assert g["posting_time"] == f["posting_time"] && g["content_type"] == f["content_type"];
  }
}

=== FILE: text.dfy ===
/** The handful of Python `str` operations the service relies on: `strip()`,
    `startswith`, substring `in`, and lower-casing. Strings are sequences of
    Unicode scalar values, as Python's `str` is a sequence of code points. */
module Text {

  /** Python's `str.isspace()` for one code point: the ASCII controls
      TAB..CR and FS..US, SPACE, NEL, NBSP and the Unicode space separators. */
  predicate IsSpace(c: char) {
    || ('\t' <= c <= '\r')
    || ('\U{1C}' <= c <= '\U{1F}')
    || c == ' '
    || c == '\U{85}'
    || c == '\U{A0}'
    || c == '\U{1680}'
    || ('\U{2000}' <= c <= '\U{200A}')
    || c == '\U{2028}'
    || c == '\U{2029}'
    || c == '\U{202F}'
    || c == '\U{205F}'
    || c == '\U{3000}'
  }

  predicate AllSpace(s: string) {
    forall i :: 0 <= i < |s| ==> IsSpace(s[i])
  }

  /** Neither end of `s` is whitespace: what `strip()` leaves behind. */
  predicate Trimmed(s: string) {
    |s| == 0 || (!IsSpace(s[0]) && !IsSpace(s[|s| - 1]))
  }

  /** Python's `s.startswith(p)`. */
  predicate StartsWith(s: string, p: string) {
    |p| <= |s| && s[..|p|] == p
  }

  /** Python's `s.endswith(p)`. */
  predicate EndsWith(s: string, p: string) {
    |p| <= |s| && s[|s| - |p|..] == p
  }

  /** `p` occurs in `s` starting at index `i`. */
  predicate OccursAt(s: string, p: string, i: int) {
    0 <= i && i + |p| <= |s| && s[i..i + |p|] == p
  }

  /** Python's substring test `p in s` (the empty string occurs everywhere). */
  predicate IsInfix(p: string, s: string) {
    exists i | 0 <= i <= |s| :: OccursAt(s, p, i)
  }

  /** Number of whitespace characters at the front of `s`. */
  function LeadingSpace(s: string): (n: nat)
    ensures n <= |s|
    ensures AllSpace(s[..n])
    ensures n < |s| ==> !IsSpace(s[n])
  {
    if |s| > 0 && IsSpace(s[0]) then
      var m := LeadingSpace(s[1..]);
      assert forall i :: 1 <= i < 1 + m ==> s[i] == s[1..][..m][i - 1];
      1 + m
    else 0
  }

  /** Number of whitespace characters at the back of `s`. */
  function TrailingSpace(s: string): (n: nat)
    ensures n <= |s|
    ensures AllSpace(s[|s| - n..])
    ensures n < |s| ==> !IsSpace(s[|s| - 1 - n])
  {
    if |s| > 0 && IsSpace(s[|s| - 1]) then
      var m := TrailingSpace(s[..|s| - 1]);
      assert forall i :: |s| - 1 - m <= i < |s| - 1 ==> s[i] == s[..|s| - 1][|s| - 1 - m..][i - (|s| - 1 - m)];
      1 + m
    else 0
  }

  /** Python's `s.strip()` with no argument. */
  function Strip(s: string): (r: string)
    ensures Trimmed(r)
    ensures |r| <= |s|
    ensures r == [] <==> AllSpace(s)
  {
    var a := LeadingSpace(s);
    var rest := s[a..];
    var b := TrailingSpace(rest);
    if a == |s| then
      []
    else
      assert !IsSpace(rest[0]);
      assert b < |rest|;
      var r := rest[..|rest| - b];
      assert !AllSpace(s) by { assert !IsSpace(s[a]); }
      r
  }

  /** Strip removes only whitespace: `s` is `r` with a whitespace margin on each side. */
  lemma {:induction false} StripMargins(s: string) returns (front: string, back: string)
    ensures s == front + Strip(s) + back
    ensures AllSpace(front) && AllSpace(back)
  {
    var a := LeadingSpace(s);
    var rest := s[a..];
    var b := TrailingSpace(rest);
    front := s[..a];
    if a == |s| {
      back := [];
    } else {
      back := rest[|rest| - b..];
      assert s == s[..a] + rest[..|rest| - b] + rest[|rest| - b..];
    }
  }

  lemma {:induction false} LeadingSpaceUnique(s: string, n: nat)
    requires n <= |s| && AllSpace(s[..n])
    requires n == |s| || !IsSpace(s[n])
    ensures LeadingSpace(s) == n
  {
    var m := LeadingSpace(s);
    forall i | 0 <= i < n ensures IsSpace(s[i]) { assert s[..n][i] == s[i]; }
    forall i | 0 <= i < m ensures IsSpace(s[i]) { assert s[..m][i] == s[i]; }
  }

  lemma {:induction false} TrailingSpaceUnique(s: string, n: nat)
    requires n <= |s| && AllSpace(s[|s| - n..])
    requires n == |s| || !IsSpace(s[|s| - 1 - n])
    ensures TrailingSpace(s) == n
  {
    var m := TrailingSpace(s);
    forall i | |s| - n <= i < |s| ensures IsSpace(s[i]) { assert s[|s| - n..][i - (|s| - n)] == s[i]; }
    forall i | |s| - m <= i < |s| ensures IsSpace(s[i]) { assert s[|s| - m..][i - (|s| - m)] == s[i]; }
  }

  /** The converse of StripMargins: whatever trimmed text sits between two
      whitespace margins is exactly what `strip()` returns. */
  lemma {:induction false} StripUnique(front: string, r: string, back: string)
    requires AllSpace(front) && AllSpace(back) && Trimmed(r)
    ensures Strip(front + r + back) == r
  {
    var s := front + r + back;
    if r == [] {
      assert s == front + back;
      assert AllSpace(s) by {
        forall i | 0 <= i < |s| ensures IsSpace(s[i]) {
          if i < |front| { assert s[i] == front[i]; } else { assert s[i] == back[i - |front|]; }
        }
      }
    } else {
      assert s[..|front|] == front;
      assert s[|front|] == r[0];
      LeadingSpaceUnique(s, |front|);
      var rest := s[|front|..];
      assert rest == r + back;
      assert rest[|rest| - |back|..] == back;
      assert rest[|rest| - 1 - |back|] == r[|r| - 1];
      TrailingSpaceUnique(rest, |back|);
      assert rest[..|rest| - |back|] == r;
    }
  }

  lemma {:induction false} AllSpaceConcat(a: string, b: string)
    requires AllSpace(a) && AllSpace(b)
    ensures AllSpace(a + b)
  {
    forall i | 0 <= i < |a + b| ensures IsSpace((a + b)[i]) {
      if i < |a| { assert (a + b)[i] == a[i]; } else { assert (a + b)[i] == b[i - |a|]; }
    }
  }

  /** `strip()` is idempotent. */
  lemma {:induction false} StripIdempotent(s: string)
    ensures Strip(Strip(s)) == Strip(s)
  {
    StripUnique([], Strip(s), []);
    assert [] + Strip(s) + [] == Strip(s);
  }

  /** Extra whitespace around a text does not change what `strip()` returns. */
  lemma {:induction false} StripPadded(front: string, t: string, back: string)
    requires AllSpace(front) && AllSpace(back)
    ensures Strip(front + t + back) == Strip(t)
  {
    var f, b := StripMargins(t);
    var r := Strip(t);
    AllSpaceConcat(front, f);
    AllSpaceConcat(b, back);
    Regroup(front, f, r, b, back);
    StripUnique(front + f, r, b + back);
  }

  /** Re-associating a five-part concatenation, kept apart so that the
      solver does it without the rest of the proof in view. */
  lemma {:induction false} Regroup(a: string, b: string, c: string, d: string, e: string)
    ensures a + (b + c + d) + e == (a + b) + c + (d + e)
  {
  }

  /** A text that begins with a trimmed prefix keeps that prefix through `strip()`. */
  lemma {:induction false} StripKeepsPrefix(p: string, q: string)
    requires |p| > 0 && Trimmed(p)
    ensures StartsWith(Strip(p + q), p)
  {
    var s := p + q;
    var front, back := StripMargins(s);
    var r := Strip(s);
    assert s == r + back by { assert |front| == 0 by { assert s[0] == p[0]; } }
    assert |back| <= |q| by { assert s[|p| - 1] == p[|p| - 1]; }
    assert r == s[..|s| - |back|];
    assert r[..|p|] == p;
  }

  /** A substring of a substring is a substring. */
  lemma {:induction false} InfixOfMiddle(p: string, a: string, m: string, b: string)
    requires IsInfix(p, m)
    ensures IsInfix(p, a + m + b)
  {
    var i :| 0 <= i <= |m| && OccursAt(m, p, i);
    var s := a + m + b;
    assert s[|a| + i..|a| + i + |p|] == m[i..i + |p|];
    assert OccursAt(s, p, |a| + i);
  }

  /** ASCII lower-casing of one character. */
  function LowerChar(c: char): char {
    if 'A' <= c <= 'Z' then (c as int + 32) as char else c
  }

  /** Python's `s.lower()`, restricted to ASCII letters. */
  function Lower(s: string): (r: string)
    ensures |r| == |s|
    ensures forall i :: 0 <= i < |s| ==> r[i] == LowerChar(s[i])
    ensures forall i :: 0 <= i < |r| ==> !('A' <= r[i] <= 'Z')
    ensures forall i :: 0 <= i < |s| && !('A' <= s[i] <= 'Z') ==> r[i] == s[i]
  {
    seq(|s|, i requires 0 <= i < |s| => LowerChar(s[i]))
  }
}

=== FILE: wrappers.dfy ===
/** The optional value used wherever the service may produce nothing: a decoder
    that fails, an image whose metadata could not be read, a validation that rejects. */
module Wrappers {

  datatype Option<+T> = None | Some(value: T)
}
